=== FILE: README.md ===
# k8s-sqs-autoscaler: the scaling core in Dafny

The autoscaler polls the depth of an SQS queue and resizes a Kubernetes
deployment to match. This project models its scaling core and proves
properties of the model. The core has four parts:

- the pod-delta decision (`get_pods_delta`);
- the two cooldown timers (`get_scale_up_delay`, `get_scale_down_delay`);
- the guarded update (`safe_update_deployment`, `update_deployment`);
- one polling cycle (`poll`), plus the choice of deployment among the listed ones (`get_deployment`).

It also models the two start-up validators of `lib/utils.py`:
`queue_url_region` and `enforce_env_vars`.

Modules:

- `Wrappers` (`wrappers.dfy`): `Option`, `Result` and `Outcome`. These stand in for the exceptions and `assert`s of the Python code.
- `Utils` (`utils.dfy`): `queue_url_region` and `enforce_env_vars`.
  - The regular expression `(https?)://sqs.([^.]+)` is given a declarative reading, `PatternMatch`.
  - The parser `MatchQueueUrl` is proved to find exactly the match `PatternMatch` describes.
  - The environment is passed in as a `map<string, string>`.
- `SqsPoller` (`sqs_poller.dfy`): the data model and the operations of `lib/sqs_poller.py`.
  - The cooldown state is an immutable `Cooldown` record that `Poll` threads from cycle to cycle.
  - What the SQS and Kubernetes clients would return arrives as an `Observation`: the clock reading, the message count or the error that reading it raised, the deployments listed under the label selector, and whether the patch call raised.
  - The patch call is returned as a `PatchRequest` instead of being sent.
  - `Run` folds `Poll` over a finite sequence of observations, which stands in for the endless `run` loop.
- `PollerProperties` (`poller_properties.dfy`): lemmas that relate several calls.
  - the priority rules of the delta, and the bounds one applied delta lands in;
  - the independence of the two cooldown timers;
  - what one cycle does: when it patches, when it holds, and what it leaves unchanged;
  - worked examples of single cycles;
  - over a run: each event is what `poll` does from the state earlier cycles left, later cycles never rewrite earlier ones, each timestamp is the clock of the last scaling in its direction, every patch stays in `[min, max]`, and two scalings in the same direction are at least that direction's cooldown apart whenever both cooldowns are non-negative (or the clock never goes backwards; `time()` is the wall clock and may).

Three behaviours of the code are worth stating plainly:

- **Floor and ceiling corrections wait for the cooldown.** A floor or ceiling correction is gated by the cooldown of its sign like any other delta (lib/sqs_poller.py:178-190). `PollerProperties.ScenarioFloorCorrectionIsGated` shows a floor correction being held.
- **With min == max the delta is 0 only at that count.** When `min == max` and the replica count equals it, the delta is 0 for every queue depth. With `min == max == 3` and 2 replicas, the floor correction gives +1.
- **The patch is addressed by the configured name.** The code patches `options.kubernetes_deployment` with the label-matched object as body (lib/sqs_poller.py:208-211). It does not use that object's own name, and the model does the same.

## Model

| member | source | states |
|---|---|---|
| SqsPoller.PollErrorMessage | lib/sqs_poller.py:9-11 | The not-found message is `Deployment "<name>" does not exist`, and the name can be read back from between its fixed prefix and suffix. |
| SqsPoller.GetPodsDelta | lib/sqs_poller.py:76-115 | Within [min, max] the delta is a single step (-1, 0 or +1). When min <= max, replicas + delta always lands in [min, max]. A positive delta needs room below the ceiling or a floor violation; a negative one needs room above the floor or a ceiling violation. |
| SqsPoller.ScaleUpDelay | lib/sqs_poller.py:117-130 | The scale-up delay is never negative. It is zero exactly when now >= last scale-up + cooldown. Otherwise it is the time left until then. |
| SqsPoller.ScaleDownDelay | lib/sqs_poller.py:132-145 | The same as ScaleUpDelay, for the scale-down timestamp and cooldown. |
| SqsPoller.GetDeployment | lib/sqs_poller.py:164-167 | Fails with DeploymentNotFound(configured name) exactly when the list is empty. Otherwise returns the first listed deployment. |
| SqsPoller.UpdateDeployment | lib/sqs_poller.py:203-205 | The applied count is replicas + pods, clamped at 0, so it is never negative. The deployment's name is unchanged. |
| SqsPoller.SafeUpdateDeployment | lib/sqs_poller.py:169-190 | A zero delta changes nothing. A positive delta is applied iff the scale-up cooldown has elapsed; then only last_scale_up becomes now. If blocked, the state is unchanged and the positive remaining delay is reported. A negative delta is symmetric with the scale-down timer. |
| SqsPoller.Poll | lib/sqs_poller.py:48-60 | The message count is read first: its failure gives MetricUnavailable. Then a failed listing gives ListingFailed, and an empty one DeploymentNotFound(configured name). Otherwise the first listed deployment's delta decides: zero is Steady; a non-zero delta is patched iff its direction's cooldown has elapsed, with body UpdateDeployment(first, delta), and otherwise held for exactly that direction's delay. Only a patch changes the state: a scale-up sets only last_scale_up to now, a scale-down only last_scale_down. A failed patch keeps the new timestamp. A patch targets the configured namespace and name, and with 0 <= min <= max its replica count is in [min, max]. |
| SqsPoller.Run | lib/sqs_poller.py:38-46 | A finite run of poll cycles yields one event per observation; RunEventIsPoll and RunPrefixStable state which events. |
| PollerProperties.FloorCorrection | lib/sqs_poller.py:94-97 | Below min_pods the delta is exactly min_pods - replicas, for every message count. |
| PollerProperties.CeilingCorrection | lib/sqs_poller.py:99-102 | With min_pods <= replicas and replicas > max_pods, the delta is exactly -(replicas - max_pods), for every message count. |
| PollerProperties.StepRules | lib/sqs_poller.py:104-115 | Within bounds the delta is in {-1, 0, 1}. It is +1 iff messages >= scale_up_messages and replicas < max_pods. It is -1 iff that does not hold, messages <= scale_down_messages and replicas > min_pods, so scale-up wins when both thresholds hold. |
| PollerProperties.AppliedDeltaWithinBounds | lib/sqs_poller.py:92-115 | With 0 <= min <= max, max(0, replicas + delta) lies in [min, max] from any starting count. This includes the clamp at lines 203-205. |
| PollerProperties.PinnedWhenMinEqualsMax | lib/sqs_poller.py:104-115 | When min_pods == max_pods and the deployment has that many replicas, the delta is 0 for every message count. |
| PollerProperties.CooldownsIndependent | lib/sqs_poller.py:117-145 | Changing the scale-up timestamp does not change the scale-down delay, and vice versa. |
| PollerProperties.AppliedUpdateRestartsItsTimer | lib/sqs_poller.py:178-189 | Right after an applied update, its own direction's delay is the full cooldown. The other direction's delay is unchanged. |
| PollerProperties.SteadyCycleIsIdempotent | lib/sqs_poller.py:56-57 | A cycle with a zero delta changes no timestamp, so any later cycle that reads the same queue depth and deployments, at any clock reading, is Steady too. |
| PollerProperties.FailedReadsChangeNothing | lib/sqs_poller.py:50-53 | A failed message read, a failed listing or an empty listing ends the cycle with MetricUnavailable, ListingFailed or DeploymentNotFound(configured name), in that order of precedence, and the state unchanged. |
| PollerProperties.CycleFollowsDelta | lib/sqs_poller.py:53-57 | Once both reads succeed, the first listed deployment's delta decides the cycle. A zero delta is Steady. A non-zero delta is patched iff its direction's cooldown has elapsed (body UpdateDeployment(first, delta)), and is otherwise held for that direction's remaining delay; it is never dropped. |
| PollerProperties.ScenarioDeepQueueAddsOne | lib/sqs_poller.py:104-108 | With min 2, max 10 and scale-up depth 100, five replicas and 150 messages give +1. |
| PollerProperties.ScenarioFloorCorrectionIsGated | lib/sqs_poller.py:178-183 | One replica (below min 2) gives +1. With the last scale-up at 0, a 300 s cooldown and now = 100, the cycle is held for 200 s and nothing changes. |
| PollerProperties.ScenarioCeilingBlocksScaleUp | lib/sqs_poller.py:104-108 | At max (10 replicas) a deep queue (500) gives delta 0. |
| PollerProperties.ScenarioCooldownBlocks | lib/sqs_poller.py:178-183 | A scale-up at t = 0 with a 300 s cooldown leaves a delay of 200 at t = 100. The cycle is held and the state is unchanged. |
| PollerProperties.ScenarioMissingDeploymentMessage | lib/sqs_poller.py:9-11 | An empty listing fails the cycle with DeploymentNotFound("worker"), whose message is `Deployment "worker" does not exist`, and leaves the state unchanged. |
| PollerProperties.RunPatchesWithinBounds | lib/sqs_poller.py:44-46 | With 0 <= min <= max, every patch sent in a run of cycles sets a replica count in [min, max]. |
| PollerProperties.TimestampsCoverRun | lib/sqs_poller.py:178-189 | When both cooldowns are non-negative, or the clock never goes backwards, each final timestamp is no earlier than any cycle of the run that scaled in its direction. |
| PollerProperties.TimestampsTrackLastScaling | lib/sqs_poller.py:178-189 | Each final timestamp equals the clock of the last cycle of the run that scaled in its direction, or the starting timestamp if no cycle did. |
| PollerProperties.RunPrefixStable | lib/sqs_poller.py:44-46 | The first k events of a run are the events of the run over the first k observations: later cycles never rewrite earlier ones. |
| PollerProperties.RunEventIsPoll | lib/sqs_poller.py:44-46 | Event i of a run is what one poll does with observation i, from the cooldown state the first i cycles left. |
| PollerProperties.ScalingIsRateLimited | lib/sqs_poller.py:178-190 | When both cooldowns are non-negative, or the clock never goes backwards, any two scale-ups in a run are at least scale_up_cool_down apart. Any two scale-downs are at least scale_down_cool_down apart. This includes patches that failed. |
| Utils.DotFreeRun | lib/utils.py:19 | The greedy `[^.]+` run: a dot-free prefix of its input that stops only at a '.' or at the end. |
| Utils.DotFreeRunUnique | lib/utils.py:19 | A maximal dot-free prefix is unique. |
| Utils.MatchQueueUrl | lib/utils.py:19 | Any (scheme, region) it reports is a match of `(https?)://sqs.([^.]+)` at the start of the URL. |
| Utils.MatchQueueUrlComplete | lib/utils.py:19 | Any match of the pattern is the one MatchQueueUrl reports, so the groups are determined by the URL. |
| Utils.UrlErrorMessage | lib/utils.py:20-23 | The region error's message is "Failed to extract AWS region from " followed by exactly the URL it could not read. The scheme error's message is "Queue URL must have https scheme". |
| Utils.QueueUrlRegion | lib/utils.py:18-25 | A returned region comes from an https match, and it is non-empty and dot-free. The scheme error arises only for URLs starting "http://sqs". The region error carries the URL. |
| Utils.QueueUrlRegionOnMatch | lib/utils.py:22-25 | When the pattern matches, https gives the region and http gives "Queue URL must have https scheme". |
| Utils.QueueUrlRegionNoMatch | lib/utils.py:19-20 | "Failed to extract AWS region" is returned iff no scheme and region match, so the match check precedes the scheme check. |
| Utils.QueueUrlRegionIgnoresTail | lib/utils.py:19 | The match is anchored only at the start. For a URL that matches, appending "." and any text leaves the result unchanged. |
| Utils.QueueUrlRegionOfParts | lib/utils.py:19-25 | scheme + "://sqs" + any non-newline char + dot-free region + "." + tail yields the region for https, or the scheme error for http. |
| Utils.QueueUrlRegionWithoutSqsHost | lib/utils.py:19-20 | A URL starting with neither "https://sqs" nor "http://sqs" gives the region error. |
| Utils.QueueUrlRegionGoodUrl | lib/test_utils.py:8 | `https://sqs.us-east-1.1234567890/queue` gives `us-east-1`. |
| Utils.QueueUrlRegionUnsafeUrl | lib/test_utils.py:11-13 | The same URL over http fails with "Queue URL must have https scheme". |
| Utils.QueueUrlRegionWrongFormat | lib/test_utils.py:16-18 | `https://foo.bar.us-east-1.1234567890/queue` fails with the region error carrying that URL, whose message is "Failed to extract AWS region from " followed by that URL. |
| Utils.EnforceEnvVars | lib/utils.py:27-29 | Passes iff every listed variable is set and non-empty. On failure it names a missing variable whose predecessors are all present. |
| Utils.EnvErrorMessage | lib/utils.py:29 | The message is "Environment variable is not present: " followed by exactly the missing variable's name. |
| Utils.EnforceEnvVarsEmptyIsMissing | lib/utils.py:29 | A variable set to the empty string is falsy and fails the check like an unset one. |
| Utils.EnforceEnvVarsReportsFirstMissing | lib/utils.py:28-29 | The failure names the first missing variable in list order. |
| Utils.EnforceEnvVarsExamples | lib/test_utils.py:21-30 | FOOBLYA1 and FOOBLYA2 set: the check passes. Adding FOOBLYA3 fails with "Environment variable is not present: FOOBLYA3". |

## Left out

- The boto3 SQS client and `get_number_of_messages` (lib/sqs_poller.py:30-33, 62-74) are network I/O. Their answer is `Observation.messages`: an integer count, or the error the call raised.
- The Kubernetes client calls (`load_incluster_config`, `list_namespaced_deployment`, `patch_namespaced_deployment`) are foreign API calls. The listing is an input, the patch is returned as a `PatchRequest`, and its failure is an input.
- `run`'s endless loop and `sleep` are not modelled. `Run` covers any finite number of cycles. Time between cycles shows up only in the clock readings of the observations.
- ScalingIsRateLimited and TimestampsCoverRun: with a negative cooldown and a wall clock that steps backwards, two scalings can come closer than the cooldown, so these hold only when the cooldowns are non-negative or the clock is monotone.
- `time()` returns floating-point seconds, and it is read twice in a guarded update (once for the delay and once for the timestamp). The model reads one integer clock value per cycle. The `round(delay, 2)` of the log text is dropped.
- With the initial timestamps at 0, the first action of each direction is allowed only when now >= its cooldown. In the source `time()` is epoch seconds, so this always holds.
- All logging (`logger`, debug/info/error calls) is observability with no logic, and is not modelled.
- The catch-all `except Exception` in `poll` is not modelled as such. The exceptions the core can meet are explicit results: a failed message read, a failed listing, an empty listing, a failed patch. Other Python runtime errors, such as a deployment whose `spec.replicas` is unset, are not modelled.
- `SQSPoller.__init__` (validating the environment, building the clients) is not modelled. Its two validators, `queue_url_region` and `enforce_env_vars`, are.

=== FILE: poller_properties.dfy ===
/**
 Properties of the scaling core that relate several calls: the priority rules
 of the pod delta, the bounds one applied delta lands in, the independence of
 the two cooldown timers, what one cycle leaves unchanged, the worked
 scenarios, and the rate limit a run of cycles obeys.
 */
module PollerProperties {
  import opened Wrappers
  import opened SqsPoller

  // ---------------------------------------------------------------------------
  // The pod delta
  // ---------------------------------------------------------------------------

  /** Below the floor the delta jumps straight to it, whatever the queue depth. */
  lemma FloorCorrection(opts: Options, replicas: int, messages: int)
    requires replicas < opts.minPods
    ensures GetPodsDelta(opts, replicas, messages) == opts.minPods - replicas
  {
  }

  /** Above the ceiling (and not below the floor) the delta jumps straight to
      the ceiling, whatever the queue depth. */
  lemma CeilingCorrection(opts: Options, replicas: int, messages: int)
    requires opts.minPods <= replicas && opts.maxPods < replicas
    ensures GetPodsDelta(opts, replicas, messages) == -(replicas - opts.maxPods)
  {
  }

  /** Within bounds the delta is one step at most; a scale-up happens exactly
      when the queue reaches the scale-up depth with room above, and it wins
      over a scale-down when both thresholds hold. */
  lemma StepRules(opts: Options, replicas: int, messages: int)
    requires opts.minPods <= replicas <= opts.maxPods
    ensures var pods := GetPodsDelta(opts, replicas, messages);
      && -1 <= pods <= 1
      && (pods == 1 <==> messages >= opts.scaleUpMessages && replicas < opts.maxPods)
      && (pods == -1 <==> !(messages >= opts.scaleUpMessages && replicas < opts.maxPods)
                          && messages <= opts.scaleDownMessages && replicas > opts.minPods)
  {
  }

  /** With 0 <= min <= max, one applied delta (including the clamp at zero)
      lands the replica count in [min, max], from any starting count. */
  lemma AppliedDeltaWithinBounds(opts: Options, d: Deployment, messages: int)
    requires 0 <= opts.minPods <= opts.maxPods
    ensures var d' := UpdateDeployment(d, GetPodsDelta(opts, d.replicas, messages));
      opts.minPods <= d'.replicas <= opts.maxPods
  {
  }

  /** When min == max and the deployment sits there, it is pinned. */
  lemma PinnedWhenMinEqualsMax(opts: Options, messages: int)
    requires opts.minPods == opts.maxPods
    ensures GetPodsDelta(opts, opts.minPods, messages) == 0
  {
  }

  // ---------------------------------------------------------------------------
  // Cooldowns
  // ---------------------------------------------------------------------------

  /** Recording one direction never changes the other direction's delay.
      A corollary of each delay reading only its own timestamp. */
  lemma CooldownsIndependent(opts: Options, s: Cooldown, t: int, now: int)
    ensures ScaleDownDelay(opts, s.(lastScaleUp := t), now) == ScaleDownDelay(opts, s, now)
    ensures ScaleUpDelay(opts, s.(lastScaleDown := t), now) == ScaleUpDelay(opts, s, now)
  {
  }

  /** An applied update restarts only its own direction's timer: right after
      it, that direction waits the full cooldown and the other is untouched. */
  lemma AppliedUpdateRestartsItsTimer(opts: Options, s: Cooldown, d: Deployment, pods: int, now: int)
    requires SafeUpdateDeployment(opts, s, d, pods, now).decision.Apply?
    ensures var s' := SafeUpdateDeployment(opts, s, d, pods, now).state;
      && (pods > 0 ==>
            && ScaleUpDelay(opts, s', now) == (if opts.scaleUpCoolDown > 0 then opts.scaleUpCoolDown else 0)
            && ScaleDownDelay(opts, s', now) == ScaleDownDelay(opts, s, now))
      && (pods < 0 ==>
            && ScaleDownDelay(opts, s', now) == (if opts.scaleDownCoolDown > 0 then opts.scaleDownCoolDown else 0)
            && ScaleUpDelay(opts, s', now) == ScaleUpDelay(opts, s, now))
  {
  }

  // ---------------------------------------------------------------------------
  // One cycle
  // ---------------------------------------------------------------------------

  /** A cycle that finds nothing to do changes nothing, so a later cycle
      that reads the same queue depth and the same deployments -- at any clock
      reading -- finds nothing to do either. */
  lemma SteadyCycleIsIdempotent(opts: Options, s: Cooldown, obs: Observation, later: Observation)
    requires Poll(opts, s, obs).event.Steady?
    requires later.messages == obs.messages && later.listing == obs.listing
    ensures Poll(opts, s, obs).state == s
    ensures Poll(opts, Poll(opts, s, obs).state, later) == Cycle(s, Steady)
  {
  }

  /** A cycle's event is decided by the delta of the first listed deployment
      and the cooldowns: zero means Steady; a non-zero delta is patched exactly
      when its direction's cooldown has elapsed, and otherwise held for that
      direction's remaining delay. This is `Poll`'s own contract, restated
      for a listing written as its first deployment and the rest. */
  lemma CycleFollowsDelta(opts: Options, s: Cooldown, obs: Observation, messages: int, d: Deployment, rest: seq<Deployment>)
    requires obs.messages == Success(messages) && obs.listing == Success([d] + rest)
    ensures var pods := GetPodsDelta(opts, d.replicas, messages);
      var c := Poll(opts, s, obs);
      && (pods == 0 <==> c.event.Steady?)
      && (c.event.Patched? ==> c.event.pods == pods && c.event.request.body == UpdateDeployment(d, pods))
      && (c.event.Held? ==> c.event.pods == pods)
      && (c.event.Patched? <==>
            || (pods > 0 && obs.now >= s.lastScaleUp + opts.scaleUpCoolDown)
            || (pods < 0 && obs.now >= s.lastScaleDown + opts.scaleDownCoolDown))
      && (c.event.Held? <==> pods != 0 && !c.event.Patched?)
      && (c.event.Held? && pods > 0 ==> c.event.delay == ScaleUpDelay(opts, s, obs.now))
      && (c.event.Held? && pods < 0 ==> c.event.delay == ScaleDownDelay(opts, s, obs.now))
  {
  }

  /** A cycle whose reads fail reports the failure and changes nothing: the
      message count is read first, then the listing, and an empty listing is
      "not found" for the configured deployment. The failure clauses of
      `Poll`'s contract, gathered in one place. */
  lemma FailedReadsChangeNothing(opts: Options, s: Cooldown, obs: Observation)
    ensures obs.messages.Failure? ==>
              Poll(opts, s, obs) == Cycle(s, Failed(MetricUnavailable(obs.messages.error)))
    ensures obs.messages.Success? && obs.listing.Failure? ==>
              Poll(opts, s, obs) == Cycle(s, Failed(ListingFailed(obs.listing.error)))
    ensures obs.messages.Success? && obs.listing == Success([]) ==>
              Poll(opts, s, obs) == Cycle(s, Failed(DeploymentNotFound(opts.deploymentName)))
  {
  }

  /** Options for the worked examples below: min 2, max 10, scale-up depth
      100, scale-down depth 10, 300 s cooldowns. */
  function ScenarioOptions(): (opts: Options)
    ensures 0 <= opts.minPods <= opts.maxPods
  {
    Options(2, 10, 100, 10, 300, 300, "default", "worker")
  }

  /** Five replicas and 150 messages add one pod. */
  lemma ScenarioDeepQueueAddsOne()
    ensures GetPodsDelta(ScenarioOptions(), 5, 150) == 1
  {
  }

  /** One replica is below the floor, so the delta is +1; like any positive
      delta it is gated by the scale-up cooldown (lib/sqs_poller.py:178-183):
      with the last scale-up at t = 0, the cycle at t = 100 is held for 200 s. */
  lemma ScenarioFloorCorrectionIsGated()
    ensures var obs := Observation(100, Success(0), Success([Deployment("worker", 1)]), None);
      Poll(ScenarioOptions(), Initial, obs) == Cycle(Initial, Held(1, 200))
  {
  }

  /** At the ceiling a deep queue changes nothing. */
  lemma ScenarioCeilingBlocksScaleUp()
    ensures GetPodsDelta(ScenarioOptions(), 10, 500) == 0
  {
  }

  /** A scale-up at t = 0 with a 300 s cooldown blocks the next one at
      t = 100 for 200 s and leaves the state as it was. */
  lemma ScenarioCooldownBlocks()
    ensures ScaleUpDelay(ScenarioOptions(), Initial, 100) == 200
    ensures var obs := Observation(100, Success(150), Success([Deployment("worker", 5)]), None);
      Poll(ScenarioOptions(), Initial, obs) == Cycle(Initial, Held(1, 200))
  {
  }

  /** When no deployment carries the label, the cycle fails with the message
      of `DeploymentNotFoundError` for the configured name. */
  lemma ScenarioMissingDeploymentMessage()
    ensures var obs := Observation(100, Success(0), Success([]), None);
      var c := Poll(ScenarioOptions(), Initial, obs);
      && c == Cycle(Initial, Failed(DeploymentNotFound("worker")))
      && PollErrorMessage(c.event.error) == "Deployment \"worker\" does not exist"
  {
  }

  // ---------------------------------------------------------------------------
  // Runs of cycles
  // ---------------------------------------------------------------------------

  predicate ScaledUp(e: Event)
  {
    e.Patched? && e.pods > 0
  }

  predicate ScaledDown(e: Event)
  {
    e.Patched? && e.pods < 0
  }

  /** The clock never goes backwards across the observations of a run. */
  ghost predicate ClockMonotone(trace: seq<Observation>)
  {
    forall i, j :: 0 <= i < j < |trace| ==> trace[i].now <= trace[j].now
  }

  /** Every patch among `events` sets a replica count in [min, max]. */
  ghost predicate PatchesWithinBounds(opts: Options, events: seq<Event>)
  {
    forall i :: 0 <= i < |events| && events[i].Patched?
      ==> opts.minPods <= events[i].request.body.replicas <= opts.maxPods
  }

  /** Later observations never rewrite earlier cycles: the first k events of
      a run are the events of the run over the first k observations. */
  lemma {:induction false} RunPrefixStable(opts: Options, s: Cooldown, trace: seq<Observation>, k: nat)
    requires k <= |trace|
    ensures Run(opts, s, trace).events[..k] == Run(opts, s, trace[..k]).events
    decreases |trace|
  {
    if k < |trace| {
      var n := |trace| - 1;
      assert trace[..n][..k] == trace[..k];
      RunPrefixStable(opts, s, trace[..n], k);
      var prev := Run(opts, s, trace[..n]);
      assert Run(opts, s, trace).events == prev.events + [Poll(opts, prev.state, trace[n]).event];
      assert Run(opts, s, trace).events[..k] == prev.events[..k];
    } else {
      assert trace[..k] == trace;
    }
  }

  /** Each event of a run is what `poll` does with that cycle's observation,
      from the cooldown state the earlier cycles left behind. */
  lemma RunEventIsPoll(opts: Options, s: Cooldown, trace: seq<Observation>, i: nat)
    requires i < |trace|
    ensures Run(opts, s, trace).events[i] == Poll(opts, Run(opts, s, trace[..i]).state, trace[i]).event
  {
    var p := trace[..i + 1];
    RunPrefixStable(opts, s, trace, i + 1);
    assert p[..i] == trace[..i];
    assert Run(opts, s, p).events == Run(opts, s, trace[..i]).events + [Poll(opts, Run(opts, s, trace[..i]).state, trace[i]).event];
    assert Run(opts, s, trace).events[i] == Run(opts, s, trace).events[..i + 1][i];
  }

  /** Each final timestamp is the clock of the last cycle of the run that
      scaled in its direction, or the starting timestamp if none did. */
  lemma {:induction false} TimestampsTrackLastScaling(opts: Options, s: Cooldown, trace: seq<Observation>)
    ensures var r := Run(opts, s, trace);
      && ((forall i :: 0 <= i < |trace| ==> !ScaledUp(r.events[i])) ==> r.state.lastScaleUp == s.lastScaleUp)
      && (forall i :: 0 <= i < |trace| && ScaledUp(r.events[i])
            && (forall j :: i < j < |trace| ==> !ScaledUp(r.events[j]))
            ==> r.state.lastScaleUp == trace[i].now)
      && ((forall i :: 0 <= i < |trace| ==> !ScaledDown(r.events[i])) ==> r.state.lastScaleDown == s.lastScaleDown)
      && (forall i :: 0 <= i < |trace| && ScaledDown(r.events[i])
            && (forall j :: i < j < |trace| ==> !ScaledDown(r.events[j]))
            ==> r.state.lastScaleDown == trace[i].now)
    decreases |trace|
  {
    if trace != [] {
      var n := |trace| - 1;
      var p := trace[..n];
      TimestampsTrackLastScaling(opts, s, p);
      var prev := Run(opts, s, p);
      var c := Poll(opts, prev.state, trace[n]);
      var r := Run(opts, s, trace);
      assert r == Trace(c.state, prev.events + [c.event]);
      assert r.events[n] == c.event;
      forall i | 0 <= i < n
        ensures r.events[i] == prev.events[i] && p[i] == trace[i]
      {
      }
    }
  }

  /** With 0 <= min <= max, every patch sent during a run sets a replica
      count in [min, max]. */
  lemma {:induction false} RunPatchesWithinBounds(opts: Options, s: Cooldown, trace: seq<Observation>)
    requires 0 <= opts.minPods <= opts.maxPods
    ensures PatchesWithinBounds(opts, Run(opts, s, trace).events)
    decreases |trace|
  {
    if trace != [] {
      var n := |trace| - 1;
      RunPatchesWithinBounds(opts, s, trace[..n]);
      var prev := Run(opts, s, trace[..n]);
      var c := Poll(opts, prev.state, trace[n]);
      assert Run(opts, s, trace).events == prev.events + [c.event];
    }
  }

  /** Each timestamp at the end of a run is no earlier than any cycle of the
      run that scaled in its direction, provided the clock never goes
      backwards or both cooldowns are non-negative. `time()` is the wall clock
      and may step back, so the second case is the one a deployment relies on:
      a scaling is then never allowed before the previous one of its
      direction, and the timestamps only move forward. */
  lemma {:induction false} TimestampsCoverRun(opts: Options, s: Cooldown, trace: seq<Observation>)
    requires ClockMonotone(trace) || (0 <= opts.scaleUpCoolDown && 0 <= opts.scaleDownCoolDown)
    ensures var r := Run(opts, s, trace);
      && (forall i :: 0 <= i < |trace| && ScaledUp(r.events[i]) ==> trace[i].now <= r.state.lastScaleUp)
      && (forall i :: 0 <= i < |trace| && ScaledDown(r.events[i]) ==> trace[i].now <= r.state.lastScaleDown)
    decreases |trace|
  {
    if trace != [] {
      var n := |trace| - 1;
      var p := trace[..n];
      TimestampsCoverRun(opts, s, p);
      var prev := Run(opts, s, p);
      var c := Poll(opts, prev.state, trace[n]);
      var r := Run(opts, s, trace);
      assert r == Trace(c.state, prev.events + [c.event]);
      forall i | 0 <= i < n
        ensures r.events[i] == prev.events[i] && p[i] == trace[i]
      {
      }
    }
  }

  /** The rate limit: two scale-ups in a run are at least the scale-up
      cooldown apart, and two scale-downs at least the scale-down cooldown
      apart -- failed patches included, since they record their time too.
      It needs a clock that never goes backwards or non-negative cooldowns:
      with a negative cooldown and a clock stepping back, two scale-ups can
      come closer than the cooldown. */
  lemma {:induction false} ScalingIsRateLimited(opts: Options, s: Cooldown, trace: seq<Observation>)
    requires ClockMonotone(trace) || (0 <= opts.scaleUpCoolDown && 0 <= opts.scaleDownCoolDown)
    ensures var events := Run(opts, s, trace).events;
      && (forall i, j :: 0 <= i < j < |trace| && ScaledUp(events[i]) && ScaledUp(events[j])
            ==> trace[j].now >= trace[i].now + opts.scaleUpCoolDown)
      && (forall i, j :: 0 <= i < j < |trace| && ScaledDown(events[i]) && ScaledDown(events[j])
            ==> trace[j].now >= trace[i].now + opts.scaleDownCoolDown)
    decreases |trace|
  {
    if trace != [] {
      var n := |trace| - 1;
      var p := trace[..n];
      ScalingIsRateLimited(opts, s, p);
      TimestampsCoverRun(opts, s, p);
      var prev := Run(opts, s, p);
      var c := Poll(opts, prev.state, trace[n]);
      var events := Run(opts, s, trace).events;
      assert events == prev.events + [c.event];
      forall i | 0 <= i < n
        ensures events[i] == prev.events[i] && p[i] == trace[i]
      {
      }
    }
  }
}

=== FILE: sqs_poller.dfy ===
/**
 The scaling core of lib/sqs_poller.py (class `SQSPoller`): the pod-delta
 decision, the two cooldown timers, the guarded update and one polling cycle.

 The SQS and Kubernetes clients are not modelled; what a cycle learns from
 them (the message count, the deployments listed under the label selector,
 whether the patch call raised) arrives in an `Observation`, together with the
 clock reading that stands for `time()`. The patch call itself is returned as
 a `PatchRequest` instead of being sent.
 */
module SqsPoller {
  import opened Wrappers

  /** The command-line options the scaling core reads. */
  datatype Options = Options(
    minPods: int,
    maxPods: int,
    scaleUpMessages: int,     // queue depth at or above which one pod is added
    scaleDownMessages: int,   // queue depth at or below which one pod is removed
    scaleUpCoolDown: int,     // seconds between two scale-ups
    scaleDownCoolDown: int,   // seconds between two scale-downs
    namespace: string,
    deploymentName: string)

  /** When each direction last acted (`last_scale_up_time`, `last_scale_down_time`). */
  datatype Cooldown = Cooldown(lastScaleUp: int, lastScaleDown: int)

  /** Both timestamps start at 0 (class attributes of `SQSPoller`). */
  const Initial: Cooldown := Cooldown(0, 0)

  /** The part of a Kubernetes deployment the core reads and writes. */
  datatype Deployment = Deployment(name: string, replicas: int)

  /** `patch_namespaced_deployment(namespace, name, body)`: the deployment is
      addressed by the configured name, with the listed object as body. */
  datatype PatchRequest = PatchRequest(namespace: string, name: string, body: Deployment)

  /** Failures that end a cycle before any decision is taken. */
  datatype PollError =
    | MetricUnavailable(reason: string)     // get_number_of_messages raised
    | ListingFailed(reason: string)         // list_namespaced_deployment raised
    | DeploymentNotFound(deployment: string)

  /** What the environment answers during one cycle. */
  datatype Observation = Observation(
    now: int,                                      // time()
    messages: Result<int, string>,                 // ApproximateNumberOfMessages
    listing: Result<seq<Deployment>, string>,      // deployments matching app=<name>
    patchError: Option<string>)                    // Some(reason) when the patch raises

  /** What `safe_update_deployment` decides for a delta. */
  datatype Decision =
    | Skip                       // a zero delta: neither branch is taken
    | Blocked(delay: int)        // the cooldown of the delta's direction has not elapsed
    | Apply(target: Deployment)  // `update_deployment` is called with this result

  datatype Update = Update(state: Cooldown, decision: Decision)

  /** What one cycle did. */
  datatype Event =
    | Failed(error: PollError)
    | Steady                                  // the delta was zero
    | Held(pods: int, delay: int)             // blocked by a cooldown
    | Patched(pods: int, request: PatchRequest, rejection: Option<string>)

  datatype Cycle = Cycle(state: Cooldown, event: Event)

  datatype Trace = Trace(state: Cooldown, events: seq<Event>)

  /** The message each failure carries: the text of the exception that was
      raised, and for `DeploymentNotFoundError` the name set in quotes, from
      which it can be read back. */
  function PollErrorMessage(e: PollError): (msg: string)
    ensures e.DeploymentNotFound? ==>
              && |msg| == |e.deployment| + 28
              && msg[..12] == "Deployment \""
              && msg[12..|msg| - 16] == e.deployment
              && msg[|msg| - 16..] == "\" does not exist"
    ensures !e.DeploymentNotFound? ==> msg == e.reason
  {
    match e
    case MetricUnavailable(reason) => reason
    case ListingFailed(reason) => reason
    case DeploymentNotFound(name) => "Deployment \"" + name + "\" does not exist"
  }

  /**
   `get_pods_delta`: the number of pods to add (positive) or remove (negative).
   Rules in priority order: raise to the floor, lower to the ceiling, add one
   pod when the queue is deep enough, remove one when it is shallow enough.
   */
  function GetPodsDelta(opts: Options, replicas: int, messages: int): (pods: int)
    ensures opts.minPods <= replicas <= opts.maxPods ==> -1 <= pods <= 1
    ensures opts.minPods <= opts.maxPods ==> opts.minPods <= replicas + pods <= opts.maxPods
    ensures pods > 0 ==> replicas < opts.maxPods || replicas < opts.minPods
    ensures pods < 0 ==> replicas > opts.minPods || replicas > opts.maxPods
  {
    var missing := opts.minPods - replicas;
    if missing > 0 then missing
    else
      var excessive := replicas - opts.maxPods;
      if excessive > 0 then -excessive
      else if messages >= opts.scaleUpMessages && replicas < opts.maxPods then 1
      else if messages <= opts.scaleDownMessages && replicas > opts.minPods then -1
      else 0
  }

  /** `get_scale_up_delay`: seconds left before a scale-up is allowed, never negative. */
  function ScaleUpDelay(opts: Options, s: Cooldown, now: int): (delay: int)
    ensures delay >= 0
    ensures delay == 0 <==> now >= s.lastScaleUp + opts.scaleUpCoolDown
    ensures delay > 0 ==> now + delay == s.lastScaleUp + opts.scaleUpCoolDown
  {
    var delay := s.lastScaleUp + opts.scaleUpCoolDown - now;
    if delay < 0 then 0 else delay
  }

  /** `get_scale_down_delay`: seconds left before a scale-down is allowed, never negative. */
  function ScaleDownDelay(opts: Options, s: Cooldown, now: int): (delay: int)
    ensures delay >= 0
    ensures delay == 0 <==> now >= s.lastScaleDown + opts.scaleDownCoolDown
    ensures delay > 0 ==> now + delay == s.lastScaleDown + opts.scaleDownCoolDown
  {
    var delay := s.lastScaleDown + opts.scaleDownCoolDown - now;
    if delay < 0 then 0 else delay
  }

  /** `get_deployment`'s choice among the listed deployments: the first one,
      and an error naming the configured deployment when there is none. */
  function GetDeployment(name: string, items: seq<Deployment>): (r: Result<Deployment, PollError>)
    ensures r.Failure? <==> |items| == 0
    ensures r.Failure? ==> r.error == DeploymentNotFound(name)
    ensures r.Success? ==> r.value == items[0]
  {
    if |items| == 0 then Failure(DeploymentNotFound(name)) else Success(items[0])
  }

  /** `update_deployment`'s arithmetic: the replica count moves by `pods` but
      never below zero; nothing else about the deployment changes. */
  function UpdateDeployment(d: Deployment, pods: int): (d': Deployment)
    ensures d'.name == d.name
    ensures d'.replicas >= 0
    ensures d.replicas + pods >= 0 ==> d'.replicas == d.replicas + pods
    ensures d.replicas + pods < 0 ==> d'.replicas == 0
  {
    var replicas := d.replicas + pods;
    d.(replicas := if replicas < 0 then 0 else replicas)
  }

  /**
   `safe_update_deployment`: a positive delta is applied only once the
   scale-up cooldown has elapsed, a negative one only once the scale-down
   cooldown has; the timestamp of that direction is set to `now` before the
   update. Corrective (floor/ceiling) deltas are gated like any other.
   */
  function SafeUpdateDeployment(opts: Options, s: Cooldown, d: Deployment, pods: int, now: int): (u: Update)
    ensures pods == 0 ==> u == Update(s, Skip)
    ensures pods > 0 && now >= s.lastScaleUp + opts.scaleUpCoolDown
            ==> u == Update(s.(lastScaleUp := now), Apply(UpdateDeployment(d, pods)))
    ensures pods > 0 && now < s.lastScaleUp + opts.scaleUpCoolDown
            ==> u == Update(s, Blocked(s.lastScaleUp + opts.scaleUpCoolDown - now))
    ensures pods < 0 && now >= s.lastScaleDown + opts.scaleDownCoolDown
            ==> u == Update(s.(lastScaleDown := now), Apply(UpdateDeployment(d, pods)))
    ensures pods < 0 && now < s.lastScaleDown + opts.scaleDownCoolDown
            ==> u == Update(s, Blocked(s.lastScaleDown + opts.scaleDownCoolDown - now))
    ensures u.decision.Blocked? ==> u.decision.delay > 0
  {
    if pods > 0 then
      var delay := ScaleUpDelay(opts, s, now);
      if delay == 0 then Update(s.(lastScaleUp := now), Apply(UpdateDeployment(d, pods)))
      else Update(s, Blocked(delay))
    else if pods < 0 then
      var delay := ScaleDownDelay(opts, s, now);
      if delay == 0 then Update(s.(lastScaleDown := now), Apply(UpdateDeployment(d, pods)))
      else Update(s, Blocked(delay))
    else
      Update(s, Skip)
  }

  /**
   `poll`: one cycle. The message count is read first, then the deployment;
   a zero delta ends the cycle, any other goes through the cooldown gate.
   A failure of either read ends the cycle with nothing changed; a failed
   patch still leaves the new timestamp in place, since it was recorded
   before the call.
   */
  function Poll(opts: Options, s: Cooldown, obs: Observation): (c: Cycle)
    ensures obs.messages.Failure? ==> c == Cycle(s, Failed(MetricUnavailable(obs.messages.error)))
    ensures !c.event.Patched? ==> c.state == s
    ensures c.event.Patched? && c.event.pods > 0 ==>
              && c.state == s.(lastScaleUp := obs.now)
              && obs.now >= s.lastScaleUp + opts.scaleUpCoolDown
    ensures c.event.Patched? && c.event.pods < 0 ==>
              && c.state == s.(lastScaleDown := obs.now)
              && obs.now >= s.lastScaleDown + opts.scaleDownCoolDown
    ensures c.event.Patched? ==> c.event.pods != 0
    ensures c.event.Patched? ==>
              && c.event.request.namespace == opts.namespace
              && c.event.request.name == opts.deploymentName
              && c.event.rejection == obs.patchError
    ensures c.event.Patched? && 0 <= opts.minPods <= opts.maxPods
            ==> opts.minPods <= c.event.request.body.replicas <= opts.maxPods
    ensures c.event.Held? ==> c.event.delay > 0 && c.event.pods != 0
    ensures obs.messages.Success? && obs.listing.Failure? ==>
              c == Cycle(s, Failed(ListingFailed(obs.listing.error)))
    ensures obs.messages.Success? && obs.listing == Success([]) ==>
              c == Cycle(s, Failed(DeploymentNotFound(opts.deploymentName)))
    ensures obs.messages.Success? && obs.listing.Success? && |obs.listing.value| > 0 ==>
              var d := obs.listing.value[0];
              var pods := GetPodsDelta(opts, d.replicas, obs.messages.value);
              && !c.event.Failed?
              && (c.event.Steady? <==> pods == 0)
              && (c.event.Patched? <==>
                    || (pods > 0 && obs.now >= s.lastScaleUp + opts.scaleUpCoolDown)
                    || (pods < 0 && obs.now >= s.lastScaleDown + opts.scaleDownCoolDown))
              && (c.event.Patched? ==> c.event.pods == pods && c.event.request.body == UpdateDeployment(d, pods))
              && (c.event.Held? && pods > 0 ==> c.event.pods == pods && c.event.delay == ScaleUpDelay(opts, s, obs.now))
              && (c.event.Held? && pods < 0 ==> c.event.pods == pods && c.event.delay == ScaleDownDelay(opts, s, obs.now))
  {
    match obs.messages
    case Failure(reason) => Cycle(s, Failed(MetricUnavailable(reason)))
    case Success(messages) =>
      match obs.listing
      case Failure(reason) => Cycle(s, Failed(ListingFailed(reason)))
      case Success(items) =>
        match GetDeployment(opts.deploymentName, items)
        case Failure(e) => Cycle(s, Failed(e))
        case Success(d) =>
          var pods := GetPodsDelta(opts, d.replicas, messages);
          if pods == 0 then Cycle(s, Steady)
          else
            var u := SafeUpdateDeployment(opts, s, d, pods, obs.now);
            match u.decision
            case Skip => Cycle(u.state, Steady)
            case Blocked(delay) => Cycle(u.state, Held(pods, delay))
            case Apply(target) =>
              Cycle(u.state, Patched(pods, PatchRequest(opts.namespace, opts.deploymentName, target), obs.patchError))
  }

  /** `run` cut to finitely many cycles: `poll` once per observation, the
      cooldown state threaded through, one event per cycle. */
  function Run(opts: Options, s: Cooldown, trace: seq<Observation>): (r: Trace)
    ensures |r.events| == |trace|
    decreases |trace|
  {
    if trace == [] then Trace(s, [])
    else
      var prev := Run(opts, s, trace[..|trace| - 1]);
      var c := Poll(opts, prev.state, trace[|trace| - 1]);
      Trace(c.state, prev.events + [c.event])
  }
}

=== FILE: utils.dfy ===
/**
 Start-up validators of the autoscaler (lib/utils.py): extracting the AWS
 region from an SQS queue URL, and checking that required environment
 variables are set. Python's `assert` failures become `Failure`/`Fail`
 values carrying the same message text.
 */
module Utils {
  import opened Wrappers

  // ---------------------------------------------------------------------------
  // queue_url_region
  // ---------------------------------------------------------------------------

  /** The two ways `queue_url_region` can fail. */
  datatype UrlError =
    | NoRegion(url: string)   // the URL does not match the pattern
    | InsecureScheme          // it matches, but the scheme is plain http

  /** The assertion message each failure carries; the region error ends with
      the URL it could not read. */
  function UrlErrorMessage(e: UrlError): (msg: string)
    ensures e.NoRegion? ==>
              && |msg| == 34 + |e.url|
              && msg[..34] == "Failed to extract AWS region from "
              && msg[34..] == e.url
    ensures e.InsecureScheme? ==> msg == "Queue URL must have https scheme"
  {
    match e
    case NoRegion(url) => "Failed to extract AWS region from " + url
    case InsecureScheme => "Queue URL must have https scheme"
  }

  predicate NoDot(s: string)
  {
    forall i :: 0 <= i < |s| ==> s[i] != '.'
  }

  /** The longest prefix of `s` free of '.', which is what the greedy class
      `[^.]+` consumes (it also accepts newlines). */
  function DotFreeRun(s: string): (run: string)
    ensures run <= s
    ensures NoDot(run)
    ensures |run| == |s| || s[|run|] == '.'
  {
    if s == [] || s[0] == '.' then [] else [s[0]] + DotFreeRun(s[1..])
  }

  /** A maximal dot-free prefix is unique: it is the one `DotFreeRun` finds. */
  lemma DotFreeRunUnique(s: string, run: string)
    requires run <= s && NoDot(run)
    requires |run| == |s| || s[|run|] == '.'
    ensures DotFreeRun(s) == run
  {
  }

  /**
   Reference reading of `re.match(r'(https?)://sqs.([^.]+)', url)`: the match
   is anchored at the start of `url`, group 1 is `scheme`, the unescaped `.`
   after "sqs" is any single character but a newline, and group 2 is `region`,
   a non-empty dot-free run that the greedy `+` extends as far as it can.
   Nothing after the region takes part in the match.
   */
  ghost predicate PatternMatch(url: string, scheme: string, region: string)
  {
    && (scheme == "https" || scheme == "http")
    && var start := |scheme| + 7;
    && var end := start + |region|;
    && end <= |url|
    && url[..start - 1] == scheme + "://sqs"
    && url[start - 1] != '\n'
    && url[start..end] == region
    && |region| > 0
    && NoDot(region)
    && (end == |url| || url[end] == '.')
  }

  /** The two capture groups `(scheme, region)` of the match, or `None` when
      `re.match` returns no match. */
  function MatchQueueUrl(url: string): (m: Option<(string, string)>)
    ensures m.Some? ==> PatternMatch(url, m.value.0, m.value.1)
  {
    var scheme := if "https://" <= url then "https" else "http";
    var head := scheme + "://sqs";
    if head <= url && |head| < |url| && url[|head|] != '\n' then
      var region := DotFreeRun(url[|head| + 1..]);
      if region == [] then None else Some((scheme, region))
    else
      None
  }

  /** Every way the pattern can match is the one `MatchQueueUrl` reports:
      the groups are determined by the URL. */
  lemma MatchQueueUrlComplete(url: string, scheme: string, region: string)
    requires PatternMatch(url, scheme, region)
    ensures MatchQueueUrl(url) == Some((scheme, region))
  {
    var start := |scheme| + 7;
    var head := scheme + "://sqs";
    assert url[..start - 1] == head;
    if scheme == "http" {
      assert url[4] == ':';
      assert !("https://" <= url) by { assert "https://"[4] != url[4]; }
    } else {
      assert url[..8] == "https://" by { assert url[..8] == url[..start - 1][..8]; }
    }
    var rest := url[start..];
    assert region <= rest by { assert rest[..|region|] == url[start..start + |region|]; }
    DotFreeRunUnique(rest, region);
  }

  /** lib/utils.py `queue_url_region`: the region of an https SQS queue URL.
      The match is checked before the scheme. */
  function QueueUrlRegion(url: string): (r: Result<string, UrlError>)
    ensures r.Success? ==> PatternMatch(url, "https", r.value)
    ensures r.Success? ==> |r.value| > 0 && NoDot(r.value)
    ensures r.Failure? && r.error.InsecureScheme? ==> "http://sqs" <= url
    ensures r.Failure? && r.error.NoRegion? ==> r.error.url == url
  {
    match MatchQueueUrl(url)
    case None => Failure(NoRegion(url))
    case Some((scheme, region)) =>
      if scheme == "https" then Success(region) else Failure(InsecureScheme)
  }

  /** Whenever the pattern matches, the result is decided by the scheme group
      alone: the region for https, the scheme error for http. */
  lemma QueueUrlRegionOnMatch(url: string, scheme: string, region: string)
    requires PatternMatch(url, scheme, region)
    ensures scheme == "https" ==> QueueUrlRegion(url) == Success(region)
    ensures scheme == "http" ==> QueueUrlRegion(url) == Failure(InsecureScheme)
  {
    MatchQueueUrlComplete(url, scheme, region);
  }

  /** The region error is reported exactly when the pattern cannot match, so
      the match check comes before (and masks) the scheme check. */
  lemma QueueUrlRegionNoMatch(url: string)
    ensures QueueUrlRegion(url) == Failure(NoRegion(url))
        <==> forall scheme, region :: !PatternMatch(url, scheme, region)
  {
    if QueueUrlRegion(url) != Failure(NoRegion(url)) {
      var m := MatchQueueUrl(url);
      assert PatternMatch(url, m.value.0, m.value.1);
    } else {
      forall scheme, region | PatternMatch(url, scheme, region)
        ensures false
      {
        MatchQueueUrlComplete(url, scheme, region);
      }
    }
  }

  /** The match is anchored only at the start: once the region is followed by
      a '.', anything may come after it without changing the result. */
  lemma QueueUrlRegionIgnoresTail(url: string, tail: string)
    requires !QueueUrlRegion(url).Failure? || !QueueUrlRegion(url).error.NoRegion?
    ensures QueueUrlRegion(url + "." + tail) == QueueUrlRegion(url)
  {
    var m := MatchQueueUrl(url);
    var scheme, region := m.value.0, m.value.1;
    var url' := url + "." + tail;
    var start := |scheme| + 7;
    var end := start + |region|;
    assert url'[..|url|] == url;
    assert url'[..start - 1] == url[..start - 1];
    assert url'[start..end] == url[start..end];
    assert url'[end] == '.' by {
      if end < |url| { assert url'[end] == url[end]; } else { assert url'[|url|] == '.'; }
    }
    assert PatternMatch(url', scheme, region);
    QueueUrlRegionOnMatch(url, scheme, region);
    QueueUrlRegionOnMatch(url', scheme, region);
  }

  /** A URL assembled from the pattern's parts: scheme, "://sqs", any one
      character but a newline, a dot-free region, then '.' and anything. */
  lemma QueueUrlRegionOfParts(scheme: string, sep: char, region: string, tail: string)
    requires scheme == "https" || scheme == "http"
    requires sep != '\n' && |region| > 0 && NoDot(region)
    ensures var url := scheme + "://sqs" + [sep] + region + "." + tail;
      QueueUrlRegion(url) == if scheme == "https" then Success(region) else Failure(InsecureScheme)
  {
    var head := scheme + "://sqs";
    var url := head + [sep] + region + "." + tail;
    var start := |scheme| + 7;
    assert url[..start - 1] == head;
    assert url[start - 1] == sep;
    assert url[start..start + |region|] == region;
    assert url[start + |region|] == '.';
    assert PatternMatch(url, scheme, region);
    QueueUrlRegionOnMatch(url, scheme, region);
  }

  /** lib/test_utils.py: the well-formed https URL yields its region. */
  lemma QueueUrlRegionGoodUrl()
    ensures QueueUrlRegion("https://sqs.us-east-1.1234567890/queue") == Success("us-east-1")
  {
    assert "https://sqs.us-east-1.1234567890/queue"
        == "https" + "://sqs" + ['.'] + "us-east-1" + "." + "1234567890/queue";
    QueueUrlRegionOfParts("https", '.', "us-east-1", "1234567890/queue");
  }

  /** lib/test_utils.py: the same URL over http fails on the scheme. */
  lemma QueueUrlRegionUnsafeUrl()
    ensures QueueUrlRegion("http://sqs.us-east-1.1234567890/queue") == Failure(InsecureScheme)
    ensures UrlErrorMessage(InsecureScheme) == "Queue URL must have https scheme"
  {
    assert "http://sqs.us-east-1.1234567890/queue"
        == "http" + "://sqs" + ['.'] + "us-east-1" + "." + "1234567890/queue";
    QueueUrlRegionOfParts("http", '.', "us-east-1", "1234567890/queue");
  }

  /** A URL that starts with neither "https://sqs" nor "http://sqs" cannot
      match, whatever follows. */
  lemma QueueUrlRegionWithoutSqsHost(url: string)
    requires !("https://sqs" <= url) && !("http://sqs" <= url)
    ensures QueueUrlRegion(url) == Failure(NoRegion(url))
  {
  }

  /** lib/test_utils.py: a URL without the "sqs" host prefix fails on the
      match, with the region error's message followed by that URL. */
  lemma QueueUrlRegionWrongFormat()
    ensures QueueUrlRegion("https://foo.bar.us-east-1.1234567890/queue")
         == Failure(NoRegion("https://foo.bar.us-east-1.1234567890/queue"))
    ensures var msg := UrlErrorMessage(NoRegion("https://foo.bar.us-east-1.1234567890/queue"));
      && msg[..34] == "Failed to extract AWS region from "
      && msg[34..] == "https://foo.bar.us-east-1.1234567890/queue"
  {
    var url := "https://foo.bar.us-east-1.1234567890/queue";
    assert !("https://sqs" <= url) by { assert url[8] != "https://sqs"[8]; }
    assert !("http://sqs" <= url) by { assert url[4] != "http://sqs"[4]; }
    QueueUrlRegionWithoutSqsHost(url);
  }

  // ---------------------------------------------------------------------------
  // enforce_env_vars
  // ---------------------------------------------------------------------------

  /** The single failure of `enforce_env_vars`. */
  datatype EnvError = MissingVariable(name: string)

  /** The assertion message, ending with the missing variable's name. */
  function EnvErrorMessage(e: EnvError): (msg: string)
    ensures |msg| == 37 + |e.name|
    ensures msg[..37] == "Environment variable is not present: "
    ensures msg[37..] == e.name
  {
    "Environment variable is not present: " + e.name
  }

  /** `os.environ.get(name)` is truthy: the variable is set and non-empty. */
  predicate Present(env: map<string, string>, name: string)
  {
    name in env && env[name] != ""
  }

  /** lib/utils.py `enforce_env_vars`, with the process environment passed in:
      passes iff every listed variable is present, and otherwise names a
      missing variable all of whose predecessors in the list are present. */
  function EnforceEnvVars(names: seq<string>, env: map<string, string>): (r: Outcome<EnvError>)
    ensures r.Pass? <==> forall i :: 0 <= i < |names| ==> Present(env, names[i])
    ensures r.Fail? ==> exists i :: 0 <= i < |names| && names[i] == r.error.name
                                && !Present(env, names[i])
                                && forall j :: 0 <= j < i ==> Present(env, names[j])
  {
    if names == [] then Pass
    else if !Present(env, names[0]) then Fail(MissingVariable(names[0]))
    else
      var r := EnforceEnvVars(names[1..], env);
      assert r.Fail? ==> exists i :: 1 <= i < |names| && names[i] == r.error.name
                                && !Present(env, names[i])
                                && forall j :: 0 <= j < i ==> Present(env, names[j]) by {
        if r.Fail? {
          var i :| 0 <= i < |names[1..]| && names[1..][i] == r.error.name
                 && !Present(env, names[1..][i])
                 && forall j :: 0 <= j < i ==> Present(env, names[1..][j]);
          assert forall j :: 0 <= j < i + 1 ==> Present(env, names[j]) by {
            forall j | 0 <= j < i + 1 ensures Present(env, names[j]) {
              if j > 0 { assert names[j] == names[1..][j - 1]; }
            }
          }
        }
      }
      r
  }

  /** The failure names the FIRST missing variable in list order. */
  lemma EnforceEnvVarsReportsFirstMissing(names: seq<string>, env: map<string, string>, i: nat)
    requires i < |names| && !Present(env, names[i])
    requires forall j :: 0 <= j < i ==> Present(env, names[j])
    ensures EnforceEnvVars(names, env) == Fail(MissingVariable(names[i]))
  {
  }

  /** A variable set to the empty string is falsy, so it counts as missing
      just like an unset one. */
  lemma EnforceEnvVarsEmptyIsMissing(name: string, env: map<string, string>)
    requires name in env && env[name] == ""
    ensures EnforceEnvVars([name], env) == Fail(MissingVariable(name))
  {
  }

  /** lib/test_utils.py: two set variables pass; adding an unset third fails
      and names it. */
  lemma EnforceEnvVarsExamples()
    ensures var env := map["FOOBLYA1" := "13", "FOOBLYA2" := "14"];
      && EnforceEnvVars(["FOOBLYA1", "FOOBLYA2"], env) == Pass
      && EnforceEnvVars(["FOOBLYA1", "FOOBLYA2", "FOOBLYA3"], env) == Fail(MissingVariable("FOOBLYA3"))
      && EnvErrorMessage(MissingVariable("FOOBLYA3")) == "Environment variable is not present: FOOBLYA3"
  {
    var env := map["FOOBLYA1" := "13", "FOOBLYA2" := "14"];
    var names := ["FOOBLYA1", "FOOBLYA2", "FOOBLYA3"];
    assert "FOOBLYA3" !in env;
    EnforceEnvVarsReportsFirstMissing(names, env, 2);
  }
}

=== FILE: wrappers.dfy ===
/** Failure-carrying values used in place of the exceptions the autoscaler raises. */
module Wrappers {

  /** A value that may be absent (Python's `None`). */
  datatype Option<+T> = None | Some(value: T)

  /** Either a value or the error that a Python function would have raised instead. */
  datatype Result<+R, +E> = Success(value: R) | Failure(error: E)

  /** The outcome of a check that returns nothing on success and raises on failure. */
  datatype Outcome<+E> = Pass | Fail(error: E)
}
